=== FILE: README.md ===
# odingame build core in Dafny

A model of the build script `tools/build_core.py` of the odingame repository,
in four modules:

- `Text`: the string operations the script uses. These are `startswith`,
  `endswith`, substring `in` and an ASCII `lower`.
- `PosixPath`: Python's `os.path.dirname`, `basename`, `join` and `splitext`
  on `/`-separated paths.
- `Extensions`: the three file-name normalisers `apply_exe_extension`,
  `apply_dll_extension` and `apply_lib_extension`. Each splits a path into a
  directory and a name. It removes a suffix the name already carries
  (`.exe`/`.out`, `.dll`/`lib*.so`/`.so`, `.lib`/`lib*.a`/`.a`) and rebuilds
  the name for the target platform. The platform comes from a substring test
  on the target string, in which `windows` beats `linux`. A target naming
  neither fails the script's `assert False`; the model makes such a target a
  precondition violation (`TargetSupported`).
- `BuildPlan`: the decisions of `game_is_running`, `compile_game` and `run`.
  - A build is an ordered list of abstract `Step`s:
    - make the release directory;
    - locate the compiler with `odin root`;
    - remove stale pdb files and copy glfw (Windows only);
    - provide the assets link, or print the packaging placeholder;
    - build the game library, build the driver and launch the game.
  - `Plan` computes that list from the host, the options, the settled
    hot-reload mode and whether the assets link already exists.
  - `Execute` is `run` applied to each step in turn: the first step that
    fails ends the script with status 1, and no later step starts.
  - `CompileGame` ties the two together with process detection. A game found
    running forces hot-reload mode.

The host is the raw string `platform.system()` returns (`Windows`, `Linux`).
The model keeps a quirk of `game_is_running` as written. The Windows branch
lower-cases the system name, but the Linux branch compares the raw name with
lower-case `linux`. On a Linux host the function therefore answers `None` and
never forces hot-reload (`LinuxHostNeverDetects`, `LinuxHostIgnoresRunningGame`).

Which steps can fail and which cannot:

- A non-zero status ends the script for:
  - the commands given to `run`;
  - `odin root`;
  - the file-system calls whose exceptions nothing catches (`os.makedirs`,
    `os.remove`, `os.symlink`).
- Three steps never end the script:
  - the glfw copy, whose exception is swallowed;
  - the `mklink /J` junction, whose status is ignored;
  - the packaging placeholder.

What a step returns is a parameter of the execution (`status: Step -> int`),
with one exception: the symlink step records whether the assets link already
exists, and then it always fails, as `os.symlink` raises on an existing link.

## Model

| member | source | states |
|---|---|---|
| `Text.Contains` | tools/build_core.py:27-29 | Python's `t in s`: true exactly when `t` occurs in `s` at some index |
| `PosixPath.Dirname` | tools/build_core.py:22 | `dirname` returns a prefix of the path that reaches up to the last slash. Only slashes lie between its end and that slash, and when it is all slashes it keeps every character up to and including the last slash. It is empty exactly for a path without a slash |
| `PosixPath.Basename` | tools/build_core.py:23 | `basename` returns the slash-free suffix of the path, preceded by a slash whenever it is shorter than the path |
| `PosixPath.Join` | tools/build_core.py:28-30 | `join` returns an absolute second part unchanged. Otherwise the result is the first part and then the second, with one slash added exactly when the first part is non-empty and does not already end in a slash |
| `PosixPath.JoinSplits` | tools/build_core.py:28-30 | joining a dirname-shaped directory with a slash-free name is undone by `dirname` and `basename` |
| `PosixPath.SplitExt` | tools/build_core.py:25 | `splitext` splits the path into two parts that concatenate back to it; the second is empty or one dot-led extension with no further dot and no slash |
| `PosixPath.SplitExtAppend` | tools/build_core.py:24-25 | on `s.x` with a slash-free `s`, `splitext` removes exactly `.x`, unless `s` is made only of dots (the empty `s` included), in which case nothing is split off |
| `Extensions.PlatformOf` | tools/build_core.py:27-31 | a supported target selects Windows exactly when it contains `windows` (so `windows` wins when both appear); a Linux selection means the target contains `linux` |
| `Extensions.ApplyExeExtension` | tools/build_core.py:21-32 | only the name changes: the result keeps the input's dirname, and its basename is the stem of the input's basename plus `.exe` on Windows, or the bare stem on Linux |
| `Extensions.ExeStemExact` | tools/build_core.py:22-25 | the stem is the name minus a trailing `.exe` or `.out`, except when only dots precede that suffix; otherwise the name is unchanged |
| `Extensions.ApplyExeNormalForms` | tools/build_core.py:21-30 | `dir/s`, `dir/s.exe` and `dir/s.out` with a plain stem `s` all give `dir/s.exe` on Windows and `dir/s` on Linux |
| `Extensions.ExeIdempotent` | tools/build_core.py:21-32 | applying `apply_exe_extension` twice equals applying it once whenever the stem is non-empty and dot-free |
| `Extensions.DotOnlyExeKept` | tools/build_core.py:24-28 | `rp/.exe` is not stripped (splitext leaves it whole), so on Windows it becomes `rp/.exe.exe` |
| `Extensions.ApplyDllExtension` | tools/build_core.py:34-49 | keeps the dirname; the basename is the stem plus `.dll` on Windows, or `lib` + stem + `.so` on Linux, where the stem has `.dll`, then `lib…so`, then `.so` removed |
| `Extensions.ApplyLibExtension` | tools/build_core.py:51-66 | the same for static libraries: `.lib` on Windows, `lib` + stem + `.a` on Linux, after `.lib`, `lib…a` and `.a` are removed |
| `Extensions.ApplyLibraryExtension` | tools/build_core.py:34-66 | the shared body of the two library normalisers keeps the dirname and rebuilds the basename from its stem |
| `Extensions.LibraryStemNormalForms` | tools/build_core.py:37-42 | a plain stem `s` and its forms `s.dll`, `libs.so` and (when `s` does not start with `lib`) `s.so` all reduce to `s`; the same holds for `.lib`/`.a` |
| `Extensions.ApplyLibraryNormalForms` | tools/build_core.py:34-64 | every platform form of `dir/s` normalises to `dir/s.dll` on Windows and `dir/libs.so` on Linux (`.lib`, `libs.a` for static libraries) |
| `Extensions.LibraryIdempotent` | tools/build_core.py:34-66 | applying a library normaliser twice equals applying it once whenever the stem is non-empty and dot-free |
| `Extensions.DoubleSuffixNotIdempotent` | tools/build_core.py:37-47 | without that condition idempotence fails: on Linux `foo.so.so` gives `libfoo.so.so`, which gives `libfoo.so` |
| `Extensions.DotOnlySharedLibraryKept` | tools/build_core.py:39-47 | on Linux `rp/.so` keeps its suffix and becomes `rp/lib.so.so` |
| `BuildPlan.LinuxHostNeverDetects` | tools/build_core.py:68-81 | on a host whose system name is `Linux`, `game_is_running` answers `None`, whatever the process listing holds |
| `BuildPlan.DetectionOnlyOnWindows` | tools/build_core.py:68-81 | for any system name other than lower-case `linux`, processes are listed exactly when the lower-cased name is `windows` |
| `BuildPlan.WindowsDetection` | tools/build_core.py:68-75 | on a Windows host a non-zero listing status ends the script, and otherwise the game counts as running exactly when `odingame` occurs somewhere in the listing's output |
| `BuildPlan.RunningGameForcesHotReload` | tools/build_core.py:83-87 | a game found running makes the build execute the hot-reload plan, whatever mode was asked for; the outcome is the same as that of a build asked to hot-reload |
| `BuildPlan.RunningGameRebuildsOnlyLibrary` | tools/build_core.py:83-178 | while the game runs, a build starts nothing but the release directory, the compiler lookup and the game library |
| `BuildPlan.ModeAsRequestedUnlessRunning` | tools/build_core.py:83-87 | when the game was not found running and the listing did not fail, the build runs the plan of the mode that was asked for |
| `BuildPlan.LinuxHostIgnoresRunningGame` | tools/build_core.py:76-87 | on a Linux host the build runs in exactly the mode that was asked for |
| `BuildPlan.Preparation` | tools/build_core.py:94-167 | nothing before the first compiler run compiles or launches anything. The preparation opens with making the release directory and locating the compiler. On a Windows host outside hot reload, pdb removal and then the glfw copy follow at positions 2 and 3, and these steps appear exactly there. At most one assets step comes last. There is none in hot reload, and none for a Windows host outside package mode whose link already exists. Otherwise the last step is the packaging placeholder in package mode, the symlink on a host other than Windows, or the junction on Windows |
| `BuildPlan.PreparationRule` | tools/build_core.py:94-125 | the same opening steps and the same Windows-only, non-hot pdb removal and glfw copy, stated of the whole plan |
| `BuildPlan.PlanPositions` | tools/build_core.py:94-178 | the plan is the preparation followed by the library build, then (outside hot reload) the driver build, then (when asked) the launch |
| `BuildPlan.HotReloadPlan` | tools/build_core.py:108-178 | in hot-reload mode the plan is: make the release directory, locate the compiler, build the library; there is no pdb removal, glfw copy, assets link, driver build or launch |
| `BuildPlan.AssetsLinkRule` | tools/build_core.py:152-167 | outside hot reload: the placeholder is printed exactly in package mode; a junction is made exactly on Windows when the link is missing; a symlink is made exactly on other hosts; neither is made in package mode |
| `BuildPlan.PlanOrder` | tools/build_core.py:169-178 | library before driver before launch, each at most once, launch last; the driver is built exactly outside hot reload, and the launch happens exactly when asked outside hot reload |
| `BuildPlan.Execute` | tools/build_core.py:190-198 | the started steps are a prefix of the plan. Exit status is 0 exactly when no step fails, and then every step was started; otherwise it is 1 and the last started step is the only one that failed |
| `BuildPlan.CompileGame` | tools/build_core.py:68-87 | exit status is 0 or 1, and a failing process listing ends the script before any step starts |
| `BuildPlan.LaunchOnlyAfterSuccessfulBuild` | tools/build_core.py:169-198 | a launch is the last step started, happens only when asked outside hot reload, and only after the library and driver builds both returned 0 |
| `BuildPlan.SuccessfulRunLaunchesOnce` | tools/build_core.py:169-198 | a successful build asked to run outside hot reload started the game exactly once, as its last step |
| `BuildPlan.ExistingSymlinkStopsBuild` | tools/build_core.py:152-169 | outside hot reload and package mode on a host other than Windows, an assets link that already exists ends the script with status 1, and no compiler run or launch has started |
| `BuildPlan.GameArtifactNames` | tools/build_core.py:99-100 | under a release path without a trailing slash the build produces `odingame.exe` and `game_code.dll` for a Windows target, and `odingame` and `libgame_code.so` for a Linux target |
| `BuildPlan.DefaultTargets` | tools/build_core.py:14 | the default target of a Windows or Linux host is accepted and selects that platform |

## Left out

- Process and file-system effects are abstract steps whose outcome is a parameter. These are `subprocess.run` of `tasklist`/`ps -A`, `os.system`, `shutil.copy`, `os.symlink`, `mklink /J`, `glob` with `os.remove`, and `os.makedirs`. The one outcome the model derives itself is that `os.symlink` fails when the assets link already exists (`MakeSymlink(true)`); any other failure of a step is its given status.
- `BuildPlan.CompileGame`: a target naming neither `windows` nor `linux` is a precondition. In the script such a target still makes the release directory and runs `odin root` before `assert False` fires at lines 99-100; the model does not describe that run.
- The messages printed before an exit and the placeholder text of package mode are not modelled; only the step and the exit status are.
- `get_odin_root` (lines 181-188) is only the step `LocateOdin`, which can fail. The text it prints and the glfw path built from it are not modelled.
- The pdb name carrying a `time.time()` timestamp (lines 116-118) is a compiler flag with no effect on the plan.
- The `>> 8` decoding of `os.system` on Linux (lines 192-195) is not modelled: statuses are taken as decoded integers.
- Windows path semantics are not modelled: `ntpath` with both separators, and the `/`→`\` rewriting for the junction and the launch command. Paths use the single separator `/`, and `Launch` carries the unrewritten path.
- `Text.Lower`: lower-cases ASCII letters only, because the host names it is applied to are ASCII. Python's `str.lower` covers all of Unicode.
- The fields `version` and `use_shared_libraries` are carried in `Options` but nothing in the modelled code reads them.
- `build.py`, `scripts/blender_flip_face_winding.py` and `src/vulkan_test/fix_shaders.py` are not part of this model. They are fixed shell-outs or wrappers over Blender's API, with no logic of their own.

=== FILE: build_plan.dfy ===
/**
 The decision logic of `compile_game`, `game_is_running` and `run`: which
 steps a build takes for a host system and a set of options, and how the
 steps are executed until the first one that fails.

 Every effect on processes and files is an abstract `Step`; what a step
 returned (an exit status, or whether a file-system call raised) is a
 parameter of the execution.
 */
module BuildPlan {
  import opened Text
  import opened PosixPath
  import opened Extensions

  /** The name of the game executable and of the process looked for. */
  const GameName := "odingame"

  /** The script's `Options` record. */
  datatype Options = Options(
    version: string,
    releasePath: string,
    target: string,
    hotreload: bool,
    run: bool,
    useSharedLibraries: bool,
    package: bool)

  /** The default target: the lower-cased host system name and `-x86_64`. */
  function DefaultTarget(system: string): string {
    Lower(system) + "-x86_64"
  }

  /** The host is Windows: its system name lower-cases to `windows`. */
  predicate OnWindows(system: string) {
    Lower(system) == "windows"
  }

  // ----- detecting a running game -------------------------------------------

  /** What the process-listing command (`tasklist` or `ps -A`) returned. */
  datatype Listing = Listing(returnCode: int, stdout: string)

  /** The outcome of `game_is_running`: a truth value, Python's `None`, or the
      end of the whole script because the listing command failed. */
  datatype Detection = Answer(running: bool) | NoAnswer | ListingFailed

  /** Python's `game_is_running`. The Windows test lower-cases the system
      name; the Linux test compares the system name itself with `linux`. */
  function GameIsRunning(system: string, listing: Listing): Detection {
    if OnWindows(system) || system == "linux" then
      if listing.returnCode != 0 then ListingFailed
      else Answer(Contains(listing.stdout, GameName))
    else
      NoAnswer
  }

  /** Whether the build runs in hot-reload mode: as requested, or forced
      because the game was found running. */
  function HotReload(opts: Options, detection: Detection): bool {
    opts.hotreload || detection == Answer(true)
  }

  /** On a Linux host the system name is `Linux`, which is not `linux`, so
      `game_is_running` never lists processes there and answers `None`. */
  lemma LinuxHostNeverDetects(listing: Listing)
    ensures GameIsRunning("Linux", listing) == NoAnswer
  {
    assert |Lower("Linux")| == 5;
    assert "Linux"[0] != "linux"[0];
  }

  /** For every system name `platform.system()` can return (none is the
      lower-case `linux`), processes are listed exactly on Windows. */
  lemma DetectionOnlyOnWindows(system: string, listing: Listing)
    requires system != "linux"
    ensures GameIsRunning(system, listing) != NoAnswer <==> OnWindows(system)
  {
  }

  /** On a Windows host the listing decides: a failed listing ends the
      script, and otherwise the game counts as running exactly when its name
      occurs in the listing's output. */
  lemma WindowsDetection(system: string, listing: Listing)
    requires OnWindows(system)
    ensures GameIsRunning(system, listing) == ListingFailed <==> listing.returnCode != 0
    ensures GameIsRunning(system, listing) == Answer(true)
        <==> listing.returnCode == 0 && exists i: nat :: OccursAt(listing.stdout, GameName, i)
  {
  }

  // ----- the plan -----------------------------------------------------------

  /** The effects of a build, in the order `compile_game` performs them. */
  datatype Step =
    | MakeReleaseDir    // os.makedirs of the release directory
    | LocateOdin        // `odin root`; a non-zero status ends the script
    | RemovePdbs        // deleting stale *.pdb files (Windows)
    | CopyGlfw          // copying glfw3.dll; a failure is swallowed (Windows)
    | MakeJunction      // mklink /J of the assets directory; status ignored (Windows)
    | MakeSymlink(linkExists: bool)  // os.symlink of the assets directory (other hosts)
    | PrintPackageTodo  // the placeholder message of package mode
    | BuildGameLib(out: string)
    | BuildDriver(out: string)
    | Launch(exe: string)
  {
    /** Steps whose failure ends the script with exit status 1: the commands
        given to `run`, and the file-system calls whose exceptions nothing
        catches. */
    predicate CanFail() {
      !(CopyGlfw? || MakeJunction? || PrintPackageTodo?)
    }

    /** Compiling or starting the game. */
    predicate IsBuild() {
      BuildGameLib? || BuildDriver? || Launch?
    }

    /** `os.symlink` raises when the link it is asked to make already
        exists, whatever else happens. */
    predicate AlwaysFails() {
      MakeSymlink? && linkExists
    }
  }

  /** The game executable `<release_path>/odingame` normalised for the
      target. */
  function GameExePath(opts: Options): string
    requires TargetSupported(opts.target)
  {
    ApplyExeExtension(opts.target, opts.releasePath + "/" + GameName)
  }

  /** The reloadable library `<release_path>/game_code` normalised for the
      target. */
  function GameLibPath(opts: Options): string
    requires TargetSupported(opts.target)
  {
    ApplyDllExtension(opts.target, opts.releasePath + "/game_code")
  }

  /** The step that provides the release directory's `assets`, if any. */
  function AssetsSteps(windows: bool, opts: Options, hot: bool, assetsLinkExists: bool): seq<Step> {
    if hot then []
    else if opts.package then [PrintPackageTodo]
    else if !windows then [MakeSymlink(assetsLinkExists)]
    else if assetsLinkExists then []
    else [MakeJunction]
  }

  /** Everything before the first compiler run. */
  function Preparation(windows: bool, opts: Options, hot: bool, assetsLinkExists: bool): (steps: seq<Step>)
    ensures forall i :: 0 <= i < |steps| ==> !steps[i].IsBuild()
    ensures 2 <= |steps| && steps[0] == MakeReleaseDir && steps[1] == LocateOdin
    ensures RemovePdbs in steps <==> windows && !hot
    ensures CopyGlfw in steps <==> windows && !hot
    ensures !hot && opts.package ==> steps[|steps| - 1] == PrintPackageTodo
    ensures !hot && !opts.package && !windows ==> steps[|steps| - 1] == MakeSymlink(assetsLinkExists)
    ensures !hot && !opts.package && windows && !assetsLinkExists ==> steps[|steps| - 1] == MakeJunction
    ensures windows && !hot ==> steps[2] == RemovePdbs && steps[3] == CopyGlfw
    ensures |steps| == (if windows && !hot then 4 else 2)
                       + (if hot || (windows && !opts.package && assetsLinkExists) then 0 else 1)
  {
    [MakeReleaseDir, LocateOdin]
    + (if windows && !hot then [RemovePdbs, CopyGlfw] else [])
    + AssetsSteps(windows, opts, hot, assetsLinkExists)
  }

  /** The compiler runs and the launch. */
  function Builds(lib: string, exe: string, hot: bool, run: bool): seq<Step> {
    [BuildGameLib(lib)] + (if hot then [] else [BuildDriver(exe)] + (if run then [Launch(exe)] else []))
  }

  /** The steps of `compile_game` once the hot-reload mode is settled. */
  function Plan(system: string, opts: Options, hot: bool, assetsLinkExists: bool): seq<Step>
    requires TargetSupported(opts.target)
  {
    Preparation(OnWindows(system), opts, hot, assetsLinkExists)
    + Builds(GameLibPath(opts), GameExePath(opts), hot, opts.run)
  }

  /** Where the build steps sit in a plan: after every preparation step, the
      game library first, then the driver, then the launch, which is last. */
  lemma {:induction false} PlanPositions(system: string, opts: Options, hot: bool, assetsLinkExists: bool)
    requires TargetSupported(opts.target)
    ensures var steps := Plan(system, opts, hot, assetsLinkExists);
            var k := |Preparation(OnWindows(system), opts, hot, assetsLinkExists)|;
            && |steps| == k + (if hot then 1 else if opts.run then 3 else 2)
            && (forall i :: 0 <= i < k ==> !steps[i].IsBuild())
            && steps[k] == BuildGameLib(GameLibPath(opts))
            && (!hot ==> steps[k + 1] == BuildDriver(GameExePath(opts)))
            && (!hot && opts.run ==> steps[k + 2] == Launch(GameExePath(opts)))
  {
    hide GameExePath, GameLibPath, OnWindows, Contains;
    var prep := Preparation(OnWindows(system), opts, hot, assetsLinkExists);
    var builds := Builds(GameLibPath(opts), GameExePath(opts), hot, opts.run);
    var steps := prep + builds;
    assert forall i :: 0 <= i < |prep| ==> steps[i] == prep[i];
    assert forall i :: 0 <= i < |builds| ==> steps[|prep| + i] == builds[i];
  }

  /** Every plan opens by making the release directory and locating the
      compiler; stale pdb files are removed and glfw is copied exactly on a
      Windows host outside hot reload. */
  lemma {:induction false} PreparationRule(system: string, opts: Options, hot: bool, assetsLinkExists: bool)
    requires TargetSupported(opts.target)
    ensures var steps := Plan(system, opts, hot, assetsLinkExists);
            && 2 <= |steps| && steps[0] == MakeReleaseDir && steps[1] == LocateOdin
            && (RemovePdbs in steps <==> OnWindows(system) && !hot)
            && (CopyGlfw in steps <==> OnWindows(system) && !hot)
  {
    hide GameExePath, GameLibPath, OnWindows, Contains;
    var prep := Preparation(OnWindows(system), opts, hot, assetsLinkExists);
    var builds := Builds(GameLibPath(opts), GameExePath(opts), hot, opts.run);
    assert Plan(system, opts, hot, assetsLinkExists) == prep + builds;
    assert RemovePdbs !in builds && CopyGlfw !in builds;
  }

  /** In hot-reload mode the only work besides making the release directory
      and locating the compiler is the game library: no pdb removal, no glfw
      copy, no assets link, no driver and no launch. */
  lemma HotReloadPlan(system: string, opts: Options, assetsLinkExists: bool)
    requires TargetSupported(opts.target)
    ensures Plan(system, opts, true, assetsLinkExists) == [MakeReleaseDir, LocateOdin, BuildGameLib(GameLibPath(opts))]
  {
    hide GameExePath, GameLibPath, OnWindows, Contains;
  }

  /** How the assets directory is provided outside hot-reload mode: package
      mode prints its placeholder instead of linking; otherwise Windows makes
      a junction unless the link already exists, and other hosts always make
      a symlink. */
  lemma {:induction false} AssetsLinkRule(system: string, opts: Options, assetsLinkExists: bool)
    requires TargetSupported(opts.target)
    ensures var steps := Plan(system, opts, false, assetsLinkExists);
            && (PrintPackageTodo in steps <==> opts.package)
            && (MakeJunction in steps <==> !opts.package && OnWindows(system) && !assetsLinkExists)
            && (MakeSymlink(assetsLinkExists) in steps <==> !opts.package && !OnWindows(system))
  {
    hide GameExePath, GameLibPath, OnWindows, Contains;
    var windows := OnWindows(system);
    var pre := [MakeReleaseDir, LocateOdin] + (if windows then [RemovePdbs, CopyGlfw] else []);
    var assets := AssetsSteps(windows, opts, false, assetsLinkExists);
    var builds := Builds(GameLibPath(opts), GameExePath(opts), false, opts.run);
    assert Plan(system, opts, false, assetsLinkExists) == pre + assets + builds;
    assert PrintPackageTodo !in pre && MakeJunction !in pre && MakeSymlink(assetsLinkExists) !in pre;
    assert PrintPackageTodo !in builds && MakeJunction !in builds && MakeSymlink(assetsLinkExists) !in builds;
  }

  /** The game library is built before the driver, the driver before the
      launch, and each at most once; the launch happens exactly when it was
      asked for outside hot-reload mode, and nothing follows it. */
  lemma {:induction false} PlanOrder(system: string, opts: Options, hot: bool, assetsLinkExists: bool)
    requires TargetSupported(opts.target)
    ensures var steps := Plan(system, opts, hot, assetsLinkExists);
            && (forall i, j :: 0 <= i < |steps| && 0 <= j < |steps| && steps[i].BuildGameLib? && steps[j].BuildDriver? ==> i < j)
            && (forall i, j :: 0 <= i < |steps| && 0 <= j < |steps| && steps[i].BuildGameLib? && steps[j].BuildGameLib? ==> i == j)
            && (forall i, j :: 0 <= i < |steps| && 0 <= j < |steps| && steps[i].BuildDriver? && steps[j].Launch? ==> i < j)
            && (forall i, j :: 0 <= i < |steps| && 0 <= j < |steps| && steps[i].Launch? && steps[j].Launch? ==> i == j)
            && (forall i, j :: 0 <= i < |steps| && 0 <= j < |steps| && steps[i].BuildDriver? && steps[j].BuildDriver? ==> i == j)
            && (forall i :: 0 <= i < |steps| && steps[i].Launch? ==> i == |steps| - 1)
            && (BuildGameLib(GameLibPath(opts)) in steps)
            && (BuildDriver(GameExePath(opts)) in steps <==> !hot)
            && (Launch(GameExePath(opts)) in steps <==> opts.run && !hot)
  {
    hide GameExePath, GameLibPath, OnWindows, Contains;
    PlanPositions(system, opts, hot, assetsLinkExists);
    var steps := Plan(system, opts, hot, assetsLinkExists);
    var k := |Preparation(OnWindows(system), opts, hot, assetsLinkExists)|;
    assert steps[k] == BuildGameLib(GameLibPath(opts));
    if !hot {
      assert steps[k + 1] == BuildDriver(GameExePath(opts));
    }
    if !hot && opts.run {
      assert steps[k + 2] == Launch(GameExePath(opts));
    }
  }

  // ----- execution ------------------------------------------------------------

  /** The steps that were started and the script's exit status. */
  datatype Outcome = Outcome(started: seq<Step>, exitCode: int)

  /** A step that ends the script, given what it returned. */
  predicate Fails(step: Step, status: Step -> int) {
    step.CanFail() && (step.AlwaysFails() || status(step) != 0)
  }

  /** Python's `run` applied to each step in turn: the first step that fails
      ends the script with status 1 and no later step starts. */
  function Execute(steps: seq<Step>, status: Step -> int): (o: Outcome)
    ensures o.started <= steps
    ensures o.exitCode == 0 || o.exitCode == 1
    ensures o.exitCode == 0 <==> forall i :: 0 <= i < |steps| ==> !Fails(steps[i], status)
    ensures o.exitCode == 0 ==> o.started == steps
    ensures o.exitCode == 1 ==> o.started != [] && Fails(o.started[|o.started| - 1], status)
    ensures forall i :: 0 <= i < |o.started| - 1 ==> !Fails(o.started[i], status)
  {
    if steps == [] then
      Outcome([], 0)
    else if Fails(steps[0], status) then
      Outcome([steps[0]], 1)
    else
      var rest := Execute(steps[1..], status);
      assert forall i :: 0 < i < |steps| ==> steps[i] == steps[1..][i - 1];
      Outcome([steps[0]] + rest.started, rest.exitCode)
  }

  /** Python's `compile_game` followed by the script's exit: detect a running
      game, settle the hot-reload mode, then execute the plan. */
  function CompileGame(system: string, opts: Options, listing: Listing, assetsLinkExists: bool,
                       status: Step -> int): (o: Outcome)
    requires TargetSupported(opts.target)
    ensures o.exitCode == 0 || o.exitCode == 1
    ensures GameIsRunning(system, listing) == ListingFailed ==> o == Outcome([], 1)
  {
    var detection := GameIsRunning(system, listing);
    if detection.ListingFailed? then
      Outcome([], 1)
    else
      Execute(Plan(system, opts, HotReload(opts, detection), assetsLinkExists), status)
  }

  /** A game found running turns the build into a hot-reload build: the
      hot-reload plan is executed, exactly as if `hot` had been requested. */
  lemma RunningGameForcesHotReload(system: string, opts: Options, listing: Listing, assetsLinkExists: bool,
                                   status: Step -> int)
    requires TargetSupported(opts.target)
    requires GameIsRunning(system, listing) == Answer(true)
    ensures CompileGame(system, opts, listing, assetsLinkExists, status)
         == Execute(Plan(system, opts, true, assetsLinkExists), status)
    ensures CompileGame(system, opts, listing, assetsLinkExists, status)
         == CompileGame(system, opts.(hotreload := true), listing, assetsLinkExists, status)
  {
  }

  /** While the game is running a build only makes the release directory,
      locates the compiler and rebuilds the game library: the running
      executable is left alone. */
  lemma RunningGameRebuildsOnlyLibrary(system: string, opts: Options, listing: Listing, assetsLinkExists: bool,
                                       status: Step -> int)
    requires TargetSupported(opts.target)
    requires GameIsRunning(system, listing) == Answer(true)
    ensures forall s :: s in CompileGame(system, opts, listing, assetsLinkExists, status).started ==>
              s == MakeReleaseDir || s == LocateOdin || s.BuildGameLib?
  {
    hide GameLibPath, GameExePath, OnWindows, GameIsRunning, Execute, Plan;
    HotReloadPlan(system, opts, assetsLinkExists);
    var steps := Plan(system, opts, true, assetsLinkExists);
    var o := Execute(steps, status);
    assert CompileGame(system, opts, listing, assetsLinkExists, status) == o;
    forall s | s in o.started
      ensures s == MakeReleaseDir || s == LocateOdin || s.BuildGameLib?
    {
      var i :| 0 <= i < |o.started| && o.started[i] == s;
      assert s == steps[i];
    }
  }

  /** Unless the game was found running (or the listing failed), the build
      runs in the mode that was asked for. */
  lemma ModeAsRequestedUnlessRunning(system: string, opts: Options, listing: Listing, assetsLinkExists: bool,
                                     status: Step -> int)
    requires TargetSupported(opts.target)
    requires GameIsRunning(system, listing) != Answer(true) && GameIsRunning(system, listing) != ListingFailed
    ensures CompileGame(system, opts, listing, assetsLinkExists, status)
         == Execute(Plan(system, opts, opts.hotreload, assetsLinkExists), status)
  {
  }

  /** On a Linux host the process listing plays no part: the build runs in
      the mode that was asked for, whatever is running. */
  lemma LinuxHostIgnoresRunningGame(opts: Options, listing: Listing, assetsLinkExists: bool, status: Step -> int)
    requires TargetSupported(opts.target)
    ensures CompileGame("Linux", opts, listing, assetsLinkExists, status)
         == Execute(Plan("Linux", opts, opts.hotreload, assetsLinkExists), status)
  {
    hide Plan, Execute;
    LinuxHostNeverDetects(listing);
  }

  /** The game is launched only after the library and the driver were built
      successfully, only when a launch was asked for outside hot-reload mode,
      and nothing is started after the launch. */
  lemma {:induction false} LaunchOnlyAfterSuccessfulBuild(system: string, opts: Options, listing: Listing,
                                                           assetsLinkExists: bool, status: Step -> int)
    requires TargetSupported(opts.target)
    ensures var o := CompileGame(system, opts, listing, assetsLinkExists, status);
            forall i :: 0 <= i < |o.started| && o.started[i].Launch? ==>
              && i == |o.started| - 1
              && opts.run && !HotReload(opts, GameIsRunning(system, listing))
              && status(BuildGameLib(GameLibPath(opts))) == 0
              && status(BuildDriver(GameExePath(opts))) == 0
  {
    hide GameExePath, GameLibPath, OnWindows, Contains, Execute;
    var detection := GameIsRunning(system, listing);
    var o := CompileGame(system, opts, listing, assetsLinkExists, status);
    if !detection.ListingFailed? {
      var hot := HotReload(opts, detection);
      var steps := Plan(system, opts, hot, assetsLinkExists);
      assert o == Execute(steps, status);
      PlanPositions(system, opts, hot, assetsLinkExists);
      PlanOrder(system, opts, hot, assetsLinkExists);
      var k := |Preparation(OnWindows(system), opts, hot, assetsLinkExists)|;
      forall i | 0 <= i < |o.started| && o.started[i].Launch?
        ensures i == |o.started| - 1
        ensures opts.run && !hot
        ensures status(BuildGameLib(GameLibPath(opts))) == 0
        ensures status(BuildDriver(GameExePath(opts))) == 0
      {
        assert steps[i] == o.started[i];
        assert i == k + 2;
        assert steps[k] == o.started[k] && steps[k + 1] == o.started[k + 1];
      }
    }
  }

  /** A build that succeeds after a launch was asked for outside hot-reload
      mode has started the game exactly once, as its last step. */
  lemma {:induction false} SuccessfulRunLaunchesOnce(system: string, opts: Options, listing: Listing,
                                                      assetsLinkExists: bool, status: Step -> int)
    requires TargetSupported(opts.target)
    requires opts.run && !HotReload(opts, GameIsRunning(system, listing))
    ensures var o := CompileGame(system, opts, listing, assetsLinkExists, status);
            o.exitCode == 0 ==>
              && o.started != []
              && o.started[|o.started| - 1] == Launch(GameExePath(opts))
              && forall i :: 0 <= i < |o.started| - 1 ==> !o.started[i].Launch?
  {
    hide GameExePath, GameLibPath, OnWindows, Contains, Execute;
    var detection := GameIsRunning(system, listing);
    var o := CompileGame(system, opts, listing, assetsLinkExists, status);
    if o.exitCode == 0 && !detection.ListingFailed? {
      var steps := Plan(system, opts, false, assetsLinkExists);
      assert o == Execute(steps, status);
      assert o.started == steps;
      PlanPositions(system, opts, false, assetsLinkExists);
      var k := |Preparation(OnWindows(system), opts, false, assetsLinkExists)|;
      assert |steps| == k + 3 && steps[k + 2] == Launch(GameExePath(opts));
      assert steps[k] == BuildGameLib(GameLibPath(opts));
      assert steps[k + 1] == BuildDriver(GameExePath(opts));
    }
  }

  /** Outside hot reload and package mode, on a host other than Windows, a
      build whose assets link already exists ends with status 1 before any
      compiler run: `os.symlink` raises on the existing link. */
  lemma {:induction false} ExistingSymlinkStopsBuild(system: string, opts: Options, listing: Listing,
                                                      status: Step -> int)
    requires TargetSupported(opts.target)
    requires !OnWindows(system) && !opts.package
    requires !HotReload(opts, GameIsRunning(system, listing))
    ensures var o := CompileGame(system, opts, listing, true, status);
            && o.exitCode == 1
            && forall i :: 0 <= i < |o.started| ==> !o.started[i].IsBuild()
  {
    hide GameExePath, GameLibPath, OnWindows, Contains, Execute, GameIsRunning;
    var detection := GameIsRunning(system, listing);
    var o := CompileGame(system, opts, listing, true, status);
    if !detection.ListingFailed? {
      var steps := Plan(system, opts, false, true);
      assert o == Execute(steps, status);
      assert Preparation(false, opts, false, true) == [MakeReleaseDir, LocateOdin, MakeSymlink(true)];
      PlanPositions(system, opts, false, true);
      assert steps[2] == MakeSymlink(true) && Fails(steps[2], status);
      assert |o.started| > 2 ==> o.started[2] == steps[2];
      assert |o.started| <= 3;
      assert forall i :: 0 <= i < |o.started| ==> o.started[i] == steps[i];
    }
  }

  /** The files a build produces under a release path that does not end in a
      slash: `odingame.exe` and `game_code.dll` for a Windows target,
      `odingame` and `libgame_code.so` for a Linux target. */
  lemma GameArtifactNames(opts: Options)
    requires TargetSupported(opts.target)
    requires opts.releasePath == [] || opts.releasePath[|opts.releasePath| - 1] != '/'
    ensures GameExePath(opts) == opts.releasePath + "/" + ExeName(PlatformOf(opts.target), GameName)
    ensures GameLibPath(opts) == opts.releasePath + "/" + LibraryName(Shared, PlatformOf(opts.target), "game_code")
  {
    hide GameExePath, GameLibPath;
    GameExeName(opts);
    GameLibName(opts);
  }

  /** The executable half of `GameArtifactNames`. */
  lemma GameExeName(opts: Options)
    requires TargetSupported(opts.target)
    requires opts.releasePath == [] || opts.releasePath[|opts.releasePath| - 1] != '/'
    ensures GameExePath(opts) == opts.releasePath + "/" + ExeName(PlatformOf(opts.target), GameName)
  {
    hide Dirname, Basename, SplitExt, Contains, ApplyExeExtension, ExeStem, ExeName;
    PlainNames();
    ExeStemNormalForms(GameName);
    ApplyExeAt(opts.target, opts.releasePath, GameName);
  }

  /** The library half of `GameArtifactNames`. */
  lemma GameLibName(opts: Options)
    requires TargetSupported(opts.target)
    requires opts.releasePath == [] || opts.releasePath[|opts.releasePath| - 1] != '/'
    ensures GameLibPath(opts) == opts.releasePath + "/" + LibraryName(Shared, PlatformOf(opts.target), "game_code")
  {
    hide Dirname, Basename, SplitExt, Contains, ApplyLibraryExtension, LibraryStem, LibraryName;
    PlainNames();
    LibraryStemNormalForms(Shared, "game_code");
    assert "/" + "game_code" == "/game_code";
    AppendAssoc(opts.releasePath, "/", "game_code");
    ApplyLibraryAt(Shared, opts.target, opts.releasePath, "game_code");
  }

  /** The two names the build normalises are plain stems. */
  lemma PlainNames()
    ensures GameName != [] && '.' !in GameName && '/' !in GameName
    ensures "game_code" != [] && '.' !in "game_code" && '/' !in "game_code"
  {
  }

  /** The default target of a Windows or Linux host is accepted and selects
      that platform. */
  lemma DefaultTargets()
    ensures TargetSupported(DefaultTarget("Windows")) && PlatformOf(DefaultTarget("Windows")) == Windows
    ensures TargetSupported(DefaultTarget("Linux")) && PlatformOf(DefaultTarget("Linux")) == Linux
  {
    hide Contains, DefaultTarget;
    DefaultWindowsTarget();
    DefaultLinuxTarget();
  }

  /** The Windows half of `DefaultTargets`. */
  lemma DefaultWindowsTarget()
    ensures TargetSupported(DefaultTarget("Windows")) && PlatformOf(DefaultTarget("Windows")) == Windows
  {
    hide Contains;
    assert Lower("Windows") == "windows";
    assert DefaultTarget("Windows") == "windows-x86_64";
    assert OccursAt("windows-x86_64", "windows", 0);
  }

  /** The Linux half of `DefaultTargets`. */
  lemma DefaultLinuxTarget()
    ensures TargetSupported(DefaultTarget("Linux")) && PlatformOf(DefaultTarget("Linux")) == Linux
  {
    hide Contains;
    assert Lower("Linux") == "linux";
    assert DefaultTarget("Linux") == "linux-x86_64";
    assert OccursAt("linux-x86_64", "linux", 0);
    forall i: nat
      ensures !OccursAt("linux-x86_64", "windows", i)
    {
      if i + 7 <= 12 {
        assert "linux-x86_64"[i] != 'w';
        assert "linux-x86_64"[i..i + 7][0] == "linux-x86_64"[i];
      }
    }
  }
}

=== FILE: extensions.dfy ===
/**
 Platform file-name normalisation of the build script: `apply_exe_extension`,
 `apply_dll_extension` and `apply_lib_extension` rebuild the last component
 of a path for the Windows or the Linux target, after stripping whatever
 platform suffix it already carries.
 */
module Extensions {
  import opened Text
  import opened PosixPath

  /** The two targets the script builds for. */
  datatype Platform = Windows | Linux

  /** A target string the script accepts; any other makes it fail an
      assertion. */
  predicate TargetSupported(target: string) {
    Contains(target, "windows") || Contains(target, "linux")
  }

  /** The platform a target string selects: a substring test in which
      `windows` is tried first. */
  function PlatformOf(target: string): (p: Platform)
    requires TargetSupported(target)
    ensures p == Windows <==> Contains(target, "windows")
    ensures p == Linux ==> Contains(target, "linux")
  {
    if Contains(target, "windows") then Windows else Linux
  }

  /** The first half of `os.path.splitext`. */
  function Root(name: string): (root: string)
    ensures '/' !in name ==> '/' !in root
  {
    SplitExt(name).0
  }

  // ----- executables -------------------------------------------------------

  /** The name `apply_exe_extension` keeps after removing one `.exe` or `.out`. */
  function ExeStem(name: string): (stem: string)
    ensures '/' !in name ==> '/' !in stem
  {
    if EndsWith(name, ".exe") || EndsWith(name, ".out") then Root(name) else name
  }

  /** The executable file name for a stem on each platform. */
  function ExeName(platform: Platform, stem: string): (name: string)
    ensures '/' !in stem ==> '/' !in name
  {
    match platform
    case Windows => stem + ".exe"
    case Linux => stem
  }

  /** Python's `apply_exe_extension`: only the last component changes, and it
      becomes the stem followed by the platform's executable suffix. */
  function ApplyExeExtension(target: string, path: string): (r: string)
    requires TargetSupported(target)
    ensures Dirname(r) == Dirname(path)
    ensures Basename(r) == ExeName(PlatformOf(target), ExeStem(Basename(path)))
  {
    var name := ExeName(PlatformOf(target), ExeStem(Basename(path)));
    JoinSplits(Dirname(path), name);
    Join(Dirname(path), name)
  }

  /** What `ExeStem` removes, stated without `splitext`: the four characters
      of a trailing `.exe` or `.out`, unless only dots precede them. */
  lemma {:induction false} ExeStemExact(name: string)
    requires '/' !in name
    ensures ExeStem(name) ==
              if (EndsWith(name, ".exe") || EndsWith(name, ".out")) && !AllOf(name[..|name| - 4], '.')
              then name[..|name| - 4]
              else name
  {
    if EndsWith(name, ".exe") || EndsWith(name, ".out") {
      var s := name[..|name| - 4];
      var x := name[|name| - 3..];
      assert name == s + "." + x;
      assert x == "exe" || x == "out";
      SplitExtAppend(s, x);
    }
  }

  /** A dot-free stem is kept as it is and recovered from either executable
      form. */
  lemma {:induction false} ExeStemNormalForms(s: string)
    requires s != [] && '.' !in s && '/' !in s
    ensures ExeStem(s) == s
    ensures ExeStem(s + ".exe") == s
    ensures ExeStem(s + ".out") == s
  {
    hide SplitExt, Root;
    NoDotNoSuffix(s, ".exe");
    NoDotNoSuffix(s, ".out");
    RootDropsExtension(s, ".exe");
    RootDropsExtension(s, ".out");
  }

  /** Normalising `dir/name` for an executable replaces `name` by the file
      name built from its stem. */
  lemma ApplyExeAt(target: string, dir: string, name: string)
    requires TargetSupported(target)
    requires dir == [] || dir[|dir| - 1] != '/'
    requires '/' !in name
    ensures ApplyExeExtension(target, dir + "/" + name) == dir + "/" + ExeName(PlatformOf(target), ExeStem(name))
  {
    hide Dirname, Basename, SplitExt;
    JoinSibling(dir, name, ExeName(PlatformOf(target), ExeStem(name)));
  }

  /** `dir/stem`, `dir/stem.exe` and `dir/stem.out` all become
      `dir/stem.exe` on Windows and `dir/stem` on Linux. */
  lemma {:induction false} ApplyExeNormalForms(target: string, dir: string, s: string)
    requires TargetSupported(target)
    requires dir == [] || dir[|dir| - 1] != '/'
    requires s != [] && '.' !in s && '/' !in s
    ensures ApplyExeExtension(target, dir + "/" + s) == dir + "/" + ExeName(PlatformOf(target), s)
    ensures ApplyExeExtension(target, dir + "/" + s + ".exe") == dir + "/" + ExeName(PlatformOf(target), s)
    ensures ApplyExeExtension(target, dir + "/" + s + ".out") == dir + "/" + ExeName(PlatformOf(target), s)
  {
    hide Dirname, Basename, SplitExt, ApplyExeExtension;
    ExeStemNormalForms(s);
    ApplyExeAt(target, dir, s);
    AppendAssoc(dir + "/", s, ".exe");
    ApplyExeAt(target, dir, s + ".exe");
    AppendAssoc(dir + "/", s, ".out");
    ApplyExeAt(target, dir, s + ".out");
  }

  /** Normalising an executable path twice is normalising it once, provided
      its stem is non-empty and dot-free. */
  lemma {:induction false} ExeIdempotent(target: string, path: string)
    requires TargetSupported(target)
    requires ExeStem(Basename(path)) != [] && '.' !in ExeStem(Basename(path))
    ensures ApplyExeExtension(target, ApplyExeExtension(target, path)) == ApplyExeExtension(target, path)
  {
    var s := ExeStem(Basename(path));
    ExeStemNormalForms(s);
  }

  // ----- libraries ---------------------------------------------------------

  /** Shared libraries (`apply_dll_extension`) and static libraries
      (`apply_lib_extension`) follow the same rules with different suffixes. */
  datatype LibraryKind = Shared | Static {
    function WindowsExt(): (ext: string)
      ensures |ext| == 4 && ext[0] == '.' && '.' !in ext[1..] && '/' !in ext
    {
      match this
      case Shared => ".dll"
      case Static => ".lib"
    }

    /** The Linux extension of the kind. Its last character differs from
        that of the Windows extension, so no name ends in both suffixes of
        one kind (`DistinctLastChar` relies on this). */
    function LinuxExt(): (ext: string)
      ensures 2 <= |ext| <= 3 && ext[0] == '.' && '.' !in ext[1..] && '/' !in ext
      ensures ext[|ext| - 1] != WindowsExt()[3]
    {
      match this
      case Shared => ".so"
      case Static => ".a"
    }
  }

  /** Drops the extension when the name ends in `ext`, and nothing otherwise. */
  function StripSuffix(name: string, ext: string): (stem: string)
    ensures '/' !in name ==> '/' !in stem
  {
    if EndsWith(name, ext) then Root(name) else name
  }

  /** The `lib<stem><ext>` step: drops the prefix and then one extension. */
  function StripLibPrefixed(name: string, ext: string): (stem: string)
    ensures '/' !in name ==> '/' !in stem
  {
    if StartsWith(name, "lib") && EndsWith(name, ext) then Root(name[3..]) else name
  }

  /** The name a library function keeps: one Windows suffix is removed, then
      a `lib` prefix together with one Linux suffix, then one Linux suffix. */
  function LibraryStem(kind: LibraryKind, name: string): (stem: string)
    ensures '/' !in name ==> '/' !in stem
  {
    StripSuffix(StripLibPrefixed(StripSuffix(name, kind.WindowsExt()), kind.LinuxExt()), kind.LinuxExt())
  }

  /** The library file name for a stem on each platform. */
  function LibraryName(kind: LibraryKind, platform: Platform, stem: string): (name: string)
    ensures '/' !in stem ==> '/' !in name
  {
    match platform
    case Windows => stem + kind.WindowsExt()
    case Linux => "lib" + stem + kind.LinuxExt()
  }

  /** The common body of `apply_dll_extension` and `apply_lib_extension`. */
  function ApplyLibraryExtension(kind: LibraryKind, target: string, path: string): (r: string)
    requires TargetSupported(target)
    ensures Dirname(r) == Dirname(path)
    ensures Basename(r) == LibraryName(kind, PlatformOf(target), LibraryStem(kind, Basename(path)))
  {
    var name := LibraryName(kind, PlatformOf(target), LibraryStem(kind, Basename(path)));
    JoinSplits(Dirname(path), name);
    Join(Dirname(path), name)
  }

  /** Python's `apply_dll_extension`: `dir/<stem>.dll` on Windows,
      `dir/lib<stem>.so` on Linux. */
  function ApplyDllExtension(target: string, path: string): (r: string)
    requires TargetSupported(target)
    ensures Dirname(r) == Dirname(path)
    ensures Basename(r) == LibraryName(Shared, PlatformOf(target), LibraryStem(Shared, Basename(path)))
  {
    ApplyLibraryExtension(Shared, target, path)
  }

  /** Python's `apply_lib_extension`: `dir/<stem>.lib` on Windows,
      `dir/lib<stem>.a` on Linux. */
  function ApplyLibExtension(target: string, path: string): (r: string)
    requires TargetSupported(target)
    ensures Dirname(r) == Dirname(path)
    ensures Basename(r) == LibraryName(Static, PlatformOf(target), LibraryStem(Static, Basename(path)))
  {
    ApplyLibraryExtension(Static, target, path)
  }

  /** A dot-free stem is kept as it is and recovered from the Windows form,
      from the `lib`-prefixed Linux form, and from the bare Linux form when
      it does not itself begin with `lib`. */
  lemma {:induction false} LibraryStemNormalForms(kind: LibraryKind, s: string)
    requires s != [] && '.' !in s && '/' !in s
    ensures LibraryStem(kind, s) == s
    ensures LibraryStem(kind, s + kind.WindowsExt()) == s
    ensures LibraryStem(kind, "lib" + s + kind.LinuxExt()) == s
    ensures !StartsWith(s, "lib") ==> LibraryStem(kind, s + kind.LinuxExt()) == s
  {
    hide SplitExt, Root;
    var w, l := kind.WindowsExt(), kind.LinuxExt();
    NoDotNoSuffix(s, w);
    NoDotNoSuffix(s, l);
    // the bare stem passes through all three steps
    assert StripSuffix(s, w) == s;
    assert StripLibPrefixed(s, l) == s;
    assert StripSuffix(s, l) == s;
    // the Windows form loses its suffix in the first step
    RootDropsExtension(s, w);
    assert StripSuffix(s + w, w) == s;
    // the Linux forms do not end in the Windows suffix
    RootDropsExtension(s, l);
    DistinctLastChar("lib" + s + l, w, l);
    DistinctLastChar(s + l, w, l);
    assert StripSuffix("lib" + s + l, w) == "lib" + s + l;
    assert StripSuffix(s + l, w) == s + l;
    // the prefixed form loses prefix and suffix in the second step
    AppendAssoc("lib", s, l);
    assert ("lib" + (s + l))[..3] == "lib";
    assert ("lib" + (s + l))[3..] == s + l;
    assert StripLibPrefixed("lib" + s + l, l) == s;
    // the bare Linux form loses its suffix in the third step
    if !StartsWith(s, "lib") {
      NotLibPrefixed(s, l);
      assert StripLibPrefixed(s + l, l) == s + l;
    }
  }

  /** `splitext` takes exactly one dotted extension off a non-empty dot-free
      name. */
  lemma RootDropsExtension(s: string, ext: string)
    requires s != [] && '.' !in s && '/' !in s
    requires ext != [] && ext[0] == '.' && '.' !in ext[1..] && '/' !in ext
    ensures EndsWith(s + ext, ext)
    ensures Root(s + ext) == s
  {
    hide SplitExt;
    assert ext == "." + ext[1..];
    AppendAssoc(s, ".", ext[1..]);
    assert s[0] != '.';
    SplitExtAppend(s, ext[1..]);
    assert (s + ext)[|s|..] == ext;
  }

  /** Normalising `dir/name` for a library replaces `name` by the file name
      built from its stem. */
  lemma ApplyLibraryAt(kind: LibraryKind, target: string, dir: string, name: string)
    requires TargetSupported(target)
    requires dir == [] || dir[|dir| - 1] != '/'
    requires '/' !in name
    ensures ApplyLibraryExtension(kind, target, dir + "/" + name)
         == dir + "/" + LibraryName(kind, PlatformOf(target), LibraryStem(kind, name))
  {
    hide Dirname, Basename, SplitExt, LibraryStem;
    JoinSibling(dir, name, LibraryName(kind, PlatformOf(target), LibraryStem(kind, name)));
  }

  /** `dir/stem`, `dir/stem.dll`, `dir/libstem.so` and (for a stem not
      beginning with `lib`) `dir/stem.so` all become `dir/stem.dll` on
      Windows and `dir/libstem.so` on Linux; likewise with `.lib` and `.a`. */
  lemma {:induction false} ApplyLibraryNormalForms(kind: LibraryKind, target: string, dir: string, s: string)
    requires TargetSupported(target)
    requires dir == [] || dir[|dir| - 1] != '/'
    requires s != [] && '.' !in s && '/' !in s
    ensures ApplyLibraryExtension(kind, target, dir + "/" + s)
         == dir + "/" + LibraryName(kind, PlatformOf(target), s)
    ensures ApplyLibraryExtension(kind, target, dir + "/" + s + kind.WindowsExt())
         == dir + "/" + LibraryName(kind, PlatformOf(target), s)
    ensures ApplyLibraryExtension(kind, target, dir + "/" + "lib" + s + kind.LinuxExt())
         == dir + "/" + LibraryName(kind, PlatformOf(target), s)
    ensures !StartsWith(s, "lib") ==>
              (ApplyLibraryExtension(kind, target, dir + "/" + s + kind.LinuxExt())
               == dir + "/" + LibraryName(kind, PlatformOf(target), s))
  {
    hide Dirname, Basename, SplitExt, LibraryStem, ApplyLibraryExtension;
    var w, l := kind.WindowsExt(), kind.LinuxExt();
    LibraryStemNormalForms(kind, s);
    ApplyLibraryAt(kind, target, dir, s);
    AppendAssoc(dir + "/", s, w);
    ApplyLibraryAt(kind, target, dir, s + w);
    AppendAssoc(dir + "/", "lib", s);
    AppendAssoc(dir + "/", "lib" + s, l);
    ApplyLibraryAt(kind, target, dir, "lib" + s + l);
    AppendAssoc(dir + "/", s, l);
    ApplyLibraryAt(kind, target, dir, s + l);
  }

  /** Normalising a library path twice is normalising it once, provided its
      stem is non-empty and dot-free. */
  lemma {:induction false} LibraryIdempotent(kind: LibraryKind, target: string, path: string)
    requires TargetSupported(target)
    requires LibraryStem(kind, Basename(path)) != [] && '.' !in LibraryStem(kind, Basename(path))
    ensures ApplyLibraryExtension(kind, target, ApplyLibraryExtension(kind, target, path))
         == ApplyLibraryExtension(kind, target, path)
  {
    var s := LibraryStem(kind, Basename(path));
    LibraryStemNormalForms(kind, s);
  }

  /** Without the dot-free stem, idempotence fails: `foo.so.so` loses one
      `.so` on each of two successive normalisations for Linux. */
  lemma DoubleSuffixNotIdempotent()
    ensures ApplyDllExtension("linux", "foo.so.so") == "libfoo.so.so"
    ensures ApplyDllExtension("linux", "libfoo.so.so") == "libfoo.so"
  {
    hide Dirname, Basename, SplitExt, Contains, LibraryStem, ApplyLibraryExtension, Join, LastIndexOf, PlatformOf;
    LinuxTarget();
    DoubleSuffixFirstStem();
    DoubleSuffixSecondStem();
    ApplyLibraryBare(Shared, "linux", "foo.so.so");
    assert "lib" + "foo.so" + ".so" == "libfoo.so.so";
    ApplyLibraryBare(Shared, "linux", "libfoo.so.so");
    assert "lib" + "foo" + ".so" == "libfoo.so";
  }

  /** The stem behind the first normalisation of `DoubleSuffixNotIdempotent`:
      only the last step applies. */
  lemma DoubleSuffixFirstStem()
    ensures LibraryStem(Shared, "foo.so.so") == "foo.so"
  {
    hide SplitExt;
    var p := "foo.so.so";
    assert p == "foo.so" + "." + "so";
    SplitExtAppend("foo.so", "so");
    assert "foo.so"[0] != '.';
    assert Root(p) == "foo.so";
    assert p[5] == 'o';
    assert StripSuffix(p, ".dll") == p;
    assert p[0] == 'f';
    assert StripLibPrefixed(p, ".so") == p;
    assert EndsWith(p, ".so");
    assert StripSuffix(p, ".so") == "foo.so";
  }

  /** The stem behind the second normalisation: the `lib` step and then the
      last step apply. */
  lemma DoubleSuffixSecondStem()
    ensures LibraryStem(Shared, "libfoo.so.so") == "foo"
  {
    hide SplitExt;
    var p := "libfoo.so.so";
    assert p[8] == 'o';
    assert StripSuffix(p, ".dll") == p;
    assert StartsWith(p, "lib") && EndsWith(p, ".so");
    assert p[3..] == "foo.so" + "." + "so";
    SplitExtAppend("foo.so", "so");
    assert "foo.so"[0] != '.';
    assert StripLibPrefixed(p, ".so") == "foo.so";
    assert "foo.so" == "foo" + "." + "so";
    SplitExtAppend("foo", "so");
    assert "foo"[0] != '.';
    assert EndsWith("foo.so", ".so");
    assert StripSuffix("foo.so", ".so") == "foo";
  }

  /** A slash-free name is normalised to the library file name of its stem. */
  lemma ApplyLibraryBare(kind: LibraryKind, target: string, name: string)
    requires TargetSupported(target)
    requires '/' !in name
    ensures ApplyLibraryExtension(kind, target, name)
         == LibraryName(kind, PlatformOf(target), LibraryStem(kind, name))
  {
    hide Dirname, Basename, SplitExt, LibraryStem;
    SlashFreePath(name);
    SlashFreeJoin(LibraryName(kind, PlatformOf(target), LibraryStem(kind, name)));
  }

  /** A name whose only characters before its last dot are dots has no
      extension in `splitext`'s sense: `rp/.exe` keeps its `.exe` and gains
      another one on Windows. */
  lemma DotOnlyExeKept()
    ensures ApplyExeExtension("windows", "rp/.exe") == "rp/.exe.exe"
  {
    hide Dirname, Basename, SplitExt, Contains, ApplyExeExtension;
    WindowsTarget();
    assert ".exe" + ".exe" == ".exe.exe";
    assert "rp/.exe" == "rp" + "/" + ".exe";
    assert "rp/.exe.exe" == "rp" + "/" + ".exe.exe";
    assert ".exe" == "" + "." + "exe";
    SplitExtAppend("", "exe");
    assert ExeStem(".exe") == ".exe";
    ApplyExeAt("windows", "rp", ".exe");
  }

  /** Likewise `rp/.so` keeps its `.so` and becomes `rp/lib.so.so` on Linux. */
  lemma DotOnlySharedLibraryKept()
    ensures ApplyDllExtension("linux", "rp/.so") == "rp/lib.so.so"
  {
    hide Dirname, Basename, SplitExt, Contains;
    LinuxTarget();
    assert "rp/.so" == "rp" + "/" + ".so";
    assert "rp/lib.so.so" == "rp" + "/" + "lib.so.so";
    assert ".so" == "" + "." + "so";
    SplitExtAppend("", "so");
    assert !EndsWith(".so", ".dll");
    assert !StartsWith(".so", "lib");
    assert LibraryStem(Shared, ".so") == ".so";
    assert "lib" + ".so" + ".so" == "lib.so.so";
    JoinSibling("rp", ".so", "lib.so.so");
  }

  /** The target string `linux` selects Linux. */
  lemma LinuxTarget()
    ensures TargetSupported("linux") && PlatformOf("linux") == Linux
  {
    assert OccursAt("linux", "linux", 0);
    forall i: nat
      ensures !OccursAt("linux", "windows", i)
    {
    }
  }

  /** The target string `windows` selects Windows. */
  lemma WindowsTarget()
    ensures TargetSupported("windows") && PlatformOf("windows") == Windows
  {
    assert OccursAt("windows", "windows", 0);
  }

  // ----- helpers -----------------------------------------------------------

  /** A dot-free name does not end in a suffix that begins with a dot. */
  lemma NoDotNoSuffix(s: string, ext: string)
    requires '.' !in s
    requires ext != [] && ext[0] == '.'
    ensures !EndsWith(s, ext)
  {
    if |ext| <= |s| {
      assert s[|s| - |ext|..][0] == s[|s| - |ext|];
    }
  }

  /** No name ends in both library suffixes of a kind. */
  lemma DistinctLastChar(name: string, w: string, l: string)
    requires w != [] && l != [] && w[|w| - 1] != l[|l| - 1]
    requires EndsWith(name, l)
    ensures !EndsWith(name, w)
  {
    assert name[|name| - 1] == name[|name| - |l|..][|l| - 1];
    if |w| <= |name| {
      assert name[|name| - 1] == name[|name| - |w|..][|w| - 1];
    }
  }

  /** Appending a dotted suffix to a dot-free name that does not begin with
      `lib` gives a name that does not begin with `lib` either. */
  lemma NotLibPrefixed(s: string, l: string)
    requires '.' !in s && l != [] && l[0] == '.'
    requires !StartsWith(s, "lib")
    ensures !StartsWith(s + l, "lib")
  {
    if |s| >= 3 {
      assert (s + l)[..3] == s[..3];
    } else {
      assert (s + l)[|s|] == '.';
    }
  }
}

=== FILE: posix_path.dfy ===
/**
 The parts of Python's `posixpath` module that the build script relies on:
 `dirname`, `basename`, two-argument `join` and `splitext`, on paths whose
 only separator is `/`.
 */
module PosixPath {
  import opened Text

  /** Python's `s.rfind(c)` for a single character: the last index holding
      `c`, or -1 when `c` does not occur. */
  function LastIndexOf(s: string, c: char): (r: int)
    ensures -1 <= r < |s|
    ensures 0 <= r ==> s[r] == c
    ensures forall j :: r < j < |s| ==> s[j] != c
  {
    if |s| == 0 then -1
    else if s[|s| - 1] == c then |s| - 1
    else LastIndexOf(s[..|s| - 1], c)
  }

  /** The contract of `LastIndexOf` pins its result down: any index that
      holds `c` with no `c` after it is the result. */
  lemma LastIndexOfIs(s: string, c: char, k: int)
    requires -1 <= k < |s|
    requires 0 <= k ==> s[k] == c
    requires forall j :: k < j < |s| ==> s[j] != c
    ensures LastIndexOf(s, c) == k
  {
  }

  /** Python's `s.rstrip('/')`. */
  function RStripSlashes(s: string): (r: string)
    ensures StartsWith(s, r)
    ensures forall i :: |r| <= i < |s| ==> s[i] == '/'
    ensures r == [] || r[|r| - 1] != '/'
  {
    if |s| > 0 && s[|s| - 1] == '/' then
      RStripSlashes(s[..|s| - 1])
    else
      s
  }

  /** The shapes `dirname` can return: empty, only slashes (the root), or a
      path that does not end in a slash. */
  predicate IsDirname(d: string) {
    d == [] || AllOf(d, '/') || d[|d| - 1] != '/'
  }

  /** Python's `os.path.basename(p)`: the longest suffix of `p` without a
      slash. */
  function Basename(p: string): (r: string)
    ensures EndsWith(p, r)
    ensures '/' !in r
    ensures |r| < |p| ==> p[|p| - |r| - 1] == '/'
  {
    p[LastIndexOf(p, '/') + 1..]
  }

  /** Python's `os.path.dirname(p)`: everything up to the last slash, with
      trailing slashes removed unless nothing but slashes is left. */
  function Dirname(p: string): (r: string)
    ensures StartsWith(p, r)
    ensures IsDirname(r)
    ensures '/' !in p ==> r == []
    ensures '/' in p ==> r != [] && |r| <= LastIndexOf(p, '/') + 1
    ensures forall j :: |r| <= j <= LastIndexOf(p, '/') ==> p[j] == '/'
    ensures AllOf(r, '/') ==> |r| == LastIndexOf(p, '/') + 1
  {
    var head := p[..LastIndexOf(p, '/') + 1];
    if head != [] && !AllOf(head, '/') then
      var r := RStripSlashes(head);
      assert head[|head| - 1] == '/';
      r
    else
      head
  }

  /** Python's `os.path.join(a, b)`: an absolute `b` replaces `a`; otherwise
      `b` follows `a` with exactly one slash between them when `a` is not
      empty. */
  function Join(a: string, b: string): (r: string)
    ensures StartsWith(b, "/") ==> r == b
    ensures !StartsWith(b, "/") ==> StartsWith(r, a) && EndsWith(r, b) && |r| <= |a| + |b| + 1
    ensures !StartsWith(b, "/") ==> |r| == |a| + |b| + (if a == [] || EndsWith(a, "/") then 0 else 1)
    ensures !StartsWith(b, "/") && a != [] ==>
              |a| < |r| - |b| + 1 && r[|r| - |b| - 1] == '/' && AllOf(r[|a|..|r| - |b|], '/')
  {
    if StartsWith(b, "/") then b
    else if a == [] || EndsWith(a, "/") then a + b
    else a + "/" + b
  }

  /** Joining a directory as `dirname` returns it with a slash-free name is
      undone by `dirname` and `basename`. */
  lemma {:induction false} JoinSplits(d: string, n: string)
    requires IsDirname(d)
    requires '/' !in n
    ensures Dirname(Join(d, n)) == d
    ensures Basename(Join(d, n)) == n
  {
    if d == [] {
      assert n == [] || n[0] != '/';
      LastIndexOfIs(n, '/', -1);
    } else if d[|d| - 1] == '/' {
      assert n == [] || n[0] != '/';
      assert EndsWith(d, "/");
      var p := d + n;
      assert Join(d, n) == p;
      LastIndexOfIs(p, '/', |d| - 1);
      assert p[..|d|] == d;
      assert p[|d|..] == n;
    } else {
      assert n == [] || n[0] != '/';
      assert !EndsWith(d, "/");
      var p := d + "/" + n;
      assert Join(d, n) == p;
      LastIndexOfIs(p, '/', |d|);
      assert p[..|d| + 1] == d + "/";
      assert p[|d| + 1..] == n;
      assert !AllOf(d + "/", '/') by {
        assert (d + "/")[|d| - 1] != '/';
      }
      assert (d + "/")[..|d|] == d;
    }
  }

  /** Replacing the last component of `dir/name` with `name'` yields
      `dir/name'`, when `dir` does not end in a slash. */
  lemma {:induction false} JoinSibling(dir: string, name: string, name': string)
    requires dir == [] || dir[|dir| - 1] != '/'
    requires '/' !in name && '/' !in name'
    ensures Basename(dir + "/" + name) == name
    ensures Join(Dirname(dir + "/" + name), name') == dir + "/" + name'
  {
    var p := dir + "/" + name;
    LastIndexOfIs(p, '/', |dir|);
    assert p[|dir| + 1..] == name;
    assert p[..|dir| + 1] == dir + "/";
    assert name' == [] || name'[0] != '/';
    if dir == [] {
      assert AllOf(dir + "/", '/');
      assert Dirname(p) == "/";
      assert Join("/", name') == "/" + name';
    } else {
      assert !AllOf(dir + "/", '/') by {
        assert (dir + "/")[|dir| - 1] != '/';
      }
      assert (dir + "/")[..|dir|] == dir;
      assert Dirname(p) == dir;
      assert !EndsWith(dir, "/");
    }
  }

  /** A path without a slash is its own basename and has an empty dirname. */
  lemma SlashFreePath(p: string)
    requires '/' !in p
    ensures Dirname(p) == [] && Basename(p) == p
  {
    LastIndexOfIs(p, '/', -1);
  }

  /** Joining a slash-free name onto the empty directory gives the name. */
  lemma SlashFreeJoin(n: string)
    requires '/' !in n
    ensures Join([], n) == n
  {
    assert n == [] || n[0] != '/';
  }

  /** Where `splitext` cuts `p`: the last dot of the last component, or -1
      when that component has no dot or only dots before its last one. */
  function ExtensionStart(p: string): (i: int)
    ensures -1 <= i < |p|
    ensures 0 <= i ==> p[i] == '.' && '.' !in p[i + 1..] && '/' !in p[i..]
  {
    var sep := LastIndexOf(p, '/');
    var dot := LastIndexOf(p, '.');
    if sep < dot && !AllOf(p[sep + 1..dot], '.') then
      ExtensionShape(p, sep, dot);
      dot
    else
      -1
  }

  /** The text from the last dot on holds no further dot, and no slash when
      the last slash comes before that dot. */
  lemma ExtensionShape(p: string, sep: int, dot: nat)
    requires -1 <= sep < dot < |p|
    requires forall j :: sep < j < |p| ==> p[j] != '/'
    requires forall j :: dot < j < |p| ==> p[j] != '.'
    ensures '.' !in p[dot + 1..] && '/' !in p[dot..]
  {
    var ext := p[dot..];
    assert forall k :: 0 <= k < |ext| ==> ext[k] == p[dot + k];
  }

  /** Python's `os.path.splitext(p)`: splits off the text from the last dot
      of the last component, unless every character of that component before
      the dot is itself a dot. */
  function SplitExt(p: string): (r: (string, string))
    ensures r.0 + r.1 == p
    ensures r.1 == [] || (r.1[0] == '.' && '.' !in r.1[1..] && '/' !in r.1)
  {
    var i := ExtensionStart(p);
    if 0 <= i then
      assert p[i..][1..] == p[i + 1..];
      (p[..i], p[i..])
    else
      (p, [])
  }

  /** The exact behaviour of `splitext` on a slash-free name `s` followed by
      one extension `.x`: the extension comes off unless `s` is made of dots
      only (the empty `s` included). */
  lemma {:induction false} SplitExtAppend(s: string, x: string)
    requires '/' !in s && '/' !in x && '.' !in x
    ensures SplitExt(s + "." + x) == if AllOf(s, '.') then (s + "." + x, []) else (s, "." + x)
  {
    var p := s + "." + x;
    LastIndexOfIs(p, '/', -1);
    LastIndexOfIs(p, '.', |s|);
    assert p[0..|s|] == s;
    assert p[..|s|] == s;
    assert p[|s|..] == "." + x;
  }

  /** A slash-free name without any dot has no extension. */
  lemma {:induction false} SplitExtNoDot(s: string)
    requires '/' !in s && '.' !in s
    ensures SplitExt(s) == (s, [])
  {
    LastIndexOfIs(s, '/', -1);
    LastIndexOfIs(s, '.', -1);
  }
}

=== FILE: text.dfy ===
/**
 Character-sequence helpers shared by the path and build models: the
 behaviour of Python's `str.startswith`, `str.endswith`, `in` on strings and
 `str.lower` (restricted to ASCII letters).
 */
module Text {

  /** Every character of `s` is `c` (vacuously true of the empty string). */
  predicate AllOf(s: string, c: char) {
    forall i :: 0 <= i < |s| ==> s[i] == c
  }

  /** Python's `s.startswith(prefix)`. */
  predicate StartsWith(s: string, prefix: string) {
    |prefix| <= |s| && s[..|prefix|] == prefix
  }

  /** Python's `s.endswith(suffix)`. */
  predicate EndsWith(s: string, suffix: string) {
    |suffix| <= |s| && s[|s| - |suffix|..] == suffix
  }

  /** `t` occurs in `s` beginning at index `i`. */
  predicate OccursAt(s: string, t: string, i: nat) {
    i + |t| <= |s| && s[i..i + |t|] == t
  }

  /** Python's substring test `t in s`. */
  function Contains(s: string, t: string): (r: bool)
    ensures r <==> exists i: nat :: OccursAt(s, t, i)
    decreases |s|
  {
    if StartsWith(s, t) then
      assert OccursAt(s, t, 0);
      true
    else if |s| == 0 then
      false
    else
      ContainsShift(s, t);
      Contains(s[1..], t)
  }

  /** When `t` is not at the front of `s`, it occurs in `s` exactly when it
      occurs in `s` without its first character. */
  lemma ContainsShift(s: string, t: string)
    requires |s| > 0 && !StartsWith(s, t)
    ensures (exists i: nat :: OccursAt(s, t, i)) <==> (exists i: nat :: OccursAt(s[1..], t, i))
  {
    if exists i: nat :: OccursAt(s, t, i) {
      var i: nat :| OccursAt(s, t, i);
      assert i != 0;
      assert s[1..][i - 1..i - 1 + |t|] == s[i..i + |t|];
      assert OccursAt(s[1..], t, i - 1);
    }
    if exists i: nat :: OccursAt(s[1..], t, i) {
      var i: nat :| OccursAt(s[1..], t, i);
      assert s[1..][i..i + |t|] == s[i + 1..i + 1 + |t|];
      assert OccursAt(s, t, i + 1);
    }
  }

  /** Concatenation regroups freely. */
  lemma AppendAssoc(a: string, b: string, c: string)
    ensures a + b + c == a + (b + c)
  {
  }

  /** ASCII lower-casing of one character. */
  function LowerChar(c: char): char {
    if 'A' <= c <= 'Z' then (c as int + 32) as char else c
  }

  /** Python's `s.lower()` on ASCII text. */
  function Lower(s: string): (r: string)
    ensures |r| == |s|
    ensures forall i :: 0 <= i < |s| ==> r[i] == LowerChar(s[i])
  {
    if s == [] then [] else [LowerChar(s[0])] + Lower(s[1..])
  }
}
